=== FILE: README.md ===
# inversion-api-codegen: the type-declaration generator

This project models the core of `inversion_api_codegen`: the code that turns
the `types` map of an inversion API specification into Rust type
declarations. The model is written in Dafny and its properties are proved.

- `check_gen_primitive` is modelled as `Codegen.CheckGenPrimitive`. It is the
  leaf test that decides whether a nested type is written inline as `bool`,
  `u32` or `String`.
- `gen_one_type` is modelled as `Codegen.GenOneType`, a function that
  recurses on the specification `Type`. Its output is an abstract
  declaration tree (`Declarations.Node`) rather than a token stream.
  - A type alias becomes `Alias`.
  - A tuple becomes `TupleAlias`, with one `Slot` per entry.
  - A struct becomes `StructDecl`. It holds its `Field`s and the
    `Serializer`'s type list and value list.
  - The children of a composite type are collected in a
    `Module(snake(name), body)`. That module comes before the item, and it
    is omitted when nothing was generated for the children.
- Tuple entries and struct fields are sorted by `index` with
  `Sorting.SortByKey`. Its contract promises only sortedness and
  permutation.
- `generate_types` is modelled as the method `Codegen.GenerateTypes`. Its
  loop appends each top-level entry's output. It is proved equal to the
  specification function `Codegen.AllTypes`.
- The `inflector` case conversions are a parameter of every operation
  (`Naming.Inflector`), so every property holds for any snake-case and
  pascal-case conversion.

The model keeps these behaviours of the code exactly as written:
- A top-level `String` type is emitted as `pub type X = bool;`
  (crates/inversion_api_codegen/src/lib.rs:75-81), while a String nested
  in a tuple or struct is inlined as `String` (lib.rs:51). The lemma
  `StringAliasDisagreesWithInlining` states that the two disagree.
- A composite struct field's child is named `Pascal(field)` (lib.rs:122).
  It is not prefixed with the parent's name, unlike a tuple's child
  `name<index>` (lib.rs:88).
- The sort is `sort_unstable_by_key` (lib.rs:85, lib.rs:113), which leaves
  entries with equal indices in no particular order. The model's own sort
  happens to keep them in input order, but no contract promises any order
  for them.
- A tuple slot or struct field whose type is an unknown variant is not
  primitive. So it is written as the path `snake(parent)::child`, but its
  generated tokens are empty. No declaration backs that path, and if no
  other child exists no module is emitted either. `UnknownSlotDangles`
  shows this. For the same reason, a module is emitted exactly when some
  entry is a Tuple or a Struct, not whenever some entry is non-primitive.

## Model

| member | source | states |
|---|---|---|
| `Codegen.GenOneType` | crates/inversion_api_codegen/src/lib.rs:56-183 | the generator for one named type; it has no contract of its own, and its behaviour is stated by `OutputShape`, `PrimitiveAliases`, `GenOneTypeDeclares`, `TupleSlotsInIndexOrder`, `TupleModule`, `StructFieldsInIndexOrder`, `SerializerFollowsFields` and `StructModule` |
| `Codegen.AllTypes` | crates/inversion_api_codegen/src/lib.rs:186-197 | the specification of the top-level loop; no contract of its own, stated by `AllTypesAppend`, `AllTypesDeclared` and the `ensures` of `GenerateTypes` |
| `Codegen.ChildOutput` | crates/inversion_api_codegen/src/lib.rs:91-98 | what one tuple slot (and likewise one struct field, lib.rs:123-127) adds to the parent's module; no contract of its own, stated by `ChildOutputWhole`, `ChildOutputEmpty`, `ChildOutputDeclares` and `ChildOutputItems` |
| `Codegen.EntryRef` | crates/inversion_api_codegen/src/lib.rs:91-102 | the type written for a slot or field: its primitive kind inlined, or the path `modName::childName`; no contract of its own, stated by `TuplePathsResolve` and `StructPathsResolve` |
| `Codegen.TupleSlots` | crates/inversion_api_codegen/src/lib.rs:86-104 | the slots of a tuple alias; no contract of its own, stated by `TupleSlotsInIndexOrder` |
| `Codegen.StructFieldDecls` | crates/inversion_api_codegen/src/lib.rs:119-137 | the fields of a struct declaration; no contract of its own, stated by `StructFieldsInIndexOrder` |
| `Codegen.SerializerFor` | crates/inversion_api_codegen/src/lib.rs:138-149 | the serializer's type list and value list; no contract of its own, stated by `SerializerFollowsFields` |
| `Codegen.ModuleIfAny` | crates/inversion_api_codegen/src/lib.rs:170-178 | the module wrapping the children, omitted when they generated nothing; no contract of its own, stated by `OutputShape`, `TupleModule` and `StructModule` |
| `Naming.ModuleName` | crates/inversion_api_codegen/src/lib.rs:57 | the module name `snake(name)`; no contract of its own, used by `OutputShape`, `TupleModule` and `StructModule` |
| `Naming.TupleChildName` | crates/inversion_api_codegen/src/lib.rs:88 | a tuple child's name `name<index>`; no contract of its own, stated by `TupleChildNamesDistinct` and `DecimalRoundTrip` |
| `Naming.StructChildName` | crates/inversion_api_codegen/src/lib.rs:122 | a struct child's name `Pascal(field)`; no contract of its own, used by `StructChildrenDeclare` and `StructModule` |
| `Naming.FieldIdent` | crates/inversion_api_codegen/src/lib.rs:121 | a field's identifier `snake(field)`; no contract of its own, used by `StructFieldsInIndexOrder` and `SerializerFollowsFields` |
| `SpecModel.DocText` | crates/inversion_api_codegen/src/lib.rs:62 | a missing doc becomes `""`; no contract of its own, used by `OutputShape` and the slot and field docs of `TupleSlotsInIndexOrder` and `StructFieldsInIndexOrder` |
| `Codegen.CheckGenPrimitive` | crates/inversion_api_codegen/src/lib.rs:47-54 | a kind is returned for exactly Bool, U32 and String; it is `bool` exactly for Bool, `u32` exactly for U32 and `String` exactly for String; every other variant gives none |
| `Sorting.SortByKey` | crates/inversion_api_codegen/src/lib.rs:84-85 | the result is sorted by the key and is a permutation of the input (same multiset, same length); the order of equal keys is unspecified |
| `Sorting.SortSortedIdentity` | crates/inversion_api_codegen/src/lib.rs:84-85 | entries whose indices already strictly ascend are left as they are; nothing is claimed for equal indices, which the unstable sort may reorder |
| `Sorting.SortTwo` | crates/inversion_api_codegen/src/lib.rs:84-85 | two entries with different indices come out in ascending index order |
| `Sorting.InsertByKey` | crates/inversion_api_codegen/src/lib.rs:85 | inserting into a sorted sequence keeps it sorted and adds exactly one occurrence of the element |
| `Codegen.SortEntries` | crates/inversion_api_codegen/src/lib.rs:84-85 | a tuple's entries come out in ascending `index` order, as a permutation of the entries |
| `Codegen.SortFields` | crates/inversion_api_codegen/src/lib.rs:112-113 | a struct's (name, entry) pairs come out in ascending entry `index` order, as a permutation of the pairs |
| `Naming.Decimal` | crates/inversion_api_codegen/src/lib.rs:88 | the index is rendered as at least one decimal digit with no leading zero, and 0 is rendered as exactly `0` |
| `Naming.DecimalRoundTrip` | crates/inversion_api_codegen/src/lib.rs:88 | reading the rendered digits back gives the index |
| `Naming.TupleChildNamesDistinct` | crates/inversion_api_codegen/src/lib.rs:88 | two slots of one tuple with different indices give their children different names `name<index>` |
| `CodegenProperties.OutputShape` | crates/inversion_api_codegen/src/lib.rs:168-182 | the output is empty exactly for an unknown variant; otherwise it is one item that carries the type's name and doc (`""` when the doc is missing), preceded by at most one module; that module is named `snake(name)` and is never empty |
| `CodegenProperties.PrimitiveAliases` | crates/inversion_api_codegen/src/lib.rs:61-81 | at the top level, Bool aliases `bool`, U32 aliases `u32` and String aliases `bool`, each with no module |
| `CodegenProperties.StringAliasDisagreesWithInlining` | crates/inversion_api_codegen/src/lib.rs:75-81 | a nested String is written as `String`, but a top-level String aliases `bool` and not `String` |
| `CodegenProperties.GenOneTypeDeclares` | crates/inversion_api_codegen/src/lib.rs:179-182 | one generated output declares exactly one item at its own level: its final item, under the name it was given; an unknown variant declares none |
| `CodegenProperties.ChildOutputDeclares` | crates/inversion_api_codegen/src/lib.rs:91-98 | a primitive slot adds nothing to the parent's module; a composite slot adds exactly one declaration, named after the child |
| `CodegenProperties.ChildOutputEmpty` | crates/inversion_api_codegen/src/lib.rs:91-98 | a slot adds tokens to the parent's module exactly when its type is a Tuple or a Struct |
| `CodegenProperties.TupleChildrenDeclare` | crates/inversion_api_codegen/src/lib.rs:86-104 | a tuple's module declares one child per composite entry, named `name<index>`, in the order of the sorted entries |
| `CodegenProperties.StructChildrenDeclare` | crates/inversion_api_codegen/src/lib.rs:119-130 | a struct's module declares one child per composite field, named `Pascal(field)`, in the order of the sorted fields |
| `CodegenProperties.ChildOutputWhole` | crates/inversion_api_codegen/src/lib.rs:91-98 | a composite slot adds the whole output generated for its type, that type's own module included; any other slot adds nothing |
| `CodegenProperties.TupleChildrenOutputs` | crates/inversion_api_codegen/src/lib.rs:86-104 | what a tuple's slots add to its module is, in the order of the sorted entries, the whole output of each composite entry under `name<index>`, and nothing else |
| `CodegenProperties.StructChildrenOutputs` | crates/inversion_api_codegen/src/lib.rs:119-130 | what a struct's fields add to its module is, in the order of the sorted fields, the whole output of each composite field under `Pascal(field)`, and nothing else |
| `CodegenProperties.ChildOutputItems` | crates/inversion_api_codegen/src/lib.rs:91-98 | the item a composite slot adds to the parent's module is the item generated for the slot's type; any other slot adds no item |
| `CodegenProperties.TupleChildrenItems` | crates/inversion_api_codegen/src/lib.rs:86-104 | a tuple's module declares, in the order of the sorted entries, the item generated recursively for each composite entry under `name<index>`, and no other item |
| `CodegenProperties.StructChildrenItems` | crates/inversion_api_codegen/src/lib.rs:119-130 | a struct's module declares, in the order of the sorted fields, the item generated recursively for each composite field under `Pascal(field)`, and no other item |
| `CodegenProperties.TupleChildrenEmpty` | crates/inversion_api_codegen/src/lib.rs:86-104 | nothing is generated for a tuple's children exactly when no entry is composite |
| `CodegenProperties.StructChildrenEmpty` | crates/inversion_api_codegen/src/lib.rs:119-130 | nothing is generated for a struct's children exactly when no field is composite |
| `CodegenProperties.TupleSlotsInIndexOrder` | crates/inversion_api_codegen/src/lib.rs:82-108 | a tuple becomes one tuple alias with one slot per entry, in ascending index order (a sorted permutation of the entries); a primitive slot is inlined as its kind, any other slot is the path `snake(name)::name<index>`; each slot carries the nested type's doc |
| `CodegenProperties.TupleModule` | crates/inversion_api_codegen/src/lib.rs:96-178 | a tuple's output has a module before the alias exactly when some entry is composite; the module is named `snake(name)` and declares, in sorted order, one child per composite entry, namely `name<index>` and the item generated recursively from that entry's type; its body is exactly the whole outputs of those entries, so each child's own module sits inside it |
| `CodegenProperties.TuplePathsResolve` | crates/inversion_api_codegen/src/lib.rs:88-102 | a slot is a path exactly when its type is not primitive; every path names the tuple's module; for a composite slot the module exists and declares the item the path names |
| `CodegenProperties.StructFieldsInIndexOrder` | crates/inversion_api_codegen/src/lib.rs:110-137 | a struct becomes one struct declaration with one field per entry, in ascending index order (a sorted permutation of the fields); each field has identifier `snake(field)`, the nested doc, and type either the inlined primitive or `snake(name)::Pascal(field)` |
| `CodegenProperties.SerializerFollowsFields` | crates/inversion_api_codegen/src/lib.rs:131-165 | the serializer's type list and value list have one element per declared field, namely that field's type and identifier, in the declared order |
| `CodegenProperties.StructModule` | crates/inversion_api_codegen/src/lib.rs:123-178 | a struct's output has a module before the struct exactly when some field is composite; the module is named `snake(name)` and declares, in sorted order, one child per composite field, namely `Pascal(field)` and the item generated recursively from that field's type; its body is exactly the whole outputs of those fields, so each child's own module sits inside it |
| `CodegenProperties.StructPathsResolve` | crates/inversion_api_codegen/src/lib.rs:121-129 | a field is a path exactly when its type is not primitive; every path names the struct's module; for a composite field the module exists and declares the item the path names |
| `Codegen.GenerateTypes` | crates/inversion_api_codegen/src/lib.rs:186-197 | the accumulated tokens are the outputs of the entries, in iteration order, each generated under the pascal-cased name |
| `CodegenProperties.AllTypesAppend` | crates/inversion_api_codegen/src/lib.rs:188-193 | the top-level output is a concatenation of per-entry outputs: two runs of entries give the first run's output followed by the second's |
| `CodegenProperties.AllTypesDeclared` | crates/inversion_api_codegen/src/lib.rs:189-192 | the top level declares one item per known entry, named `Pascal(name)`, in iteration order |
| `CodegenExamples.FieldOrderExample` | crates/inversion_api_codegen/src/lib.rs:110-166 | fields `a: bool` (index 1) and `b: u32` (index 0) are declared and serialized with `b` first, and no module is emitted, whatever their docs |
| `CodegenExamples.UnknownSlotDangles` | crates/inversion_api_codegen/src/lib.rs:91-102 | a tuple whose only slot has an unknown variant writes the path `snake(name)::name0`, but no module or declaration is generated for it |
| `CodegenExamples.TestDocumentError` | crates/inversion_api_codegen/src/lib.rs:219-222 | `error` from the test document, a string type, becomes an alias of `bool` carrying its doc `error type`, with no module, under whatever name it is given |
| `CodegenExamples.TestDocumentCallOne` | crates/inversion_api_codegen/src/lib.rs:223-236 | `callOne` from the test document, under whatever name it is given, becomes a tuple alias of `bool` and `u32`, carrying the slot docs, with no module; this holds for the fixture's slot docs and for any others |
| `CodegenExamples.TestDocumentSub` | crates/inversion_api_codegen/src/lib.rs:243-252 | the nested `sub` struct becomes a struct with fields `yay: bool` and `age: u32`, serialized in that order, and no module; this holds whatever the docs of `yay` and `age` |
| `CodegenExamples.TestDocumentCallTwo` | crates/inversion_api_codegen/src/lib.rs:237-255 | `callTwo` becomes the module `snake(name)`, which holds `Pascal(sub)`, followed by a struct with fields `yay`, `age` and `sub: snake(name)::Pascal(sub)`, serialized in that order; this holds whatever the docs of `yay` and `age` |

## Left out

- `maybe_fmt` (lib.rs:13-27) is not modelled. It starts the `rustfmt` process and pipes text through it, which is process I/O.
- `block_comment_open`, `block_comment_close` and all `quote!`/`TokenStream` rendering are not modelled. The output is the abstract `Node` tree. A doc attribute or an inline doc comment is kept as a string field. `TokenStream::is_empty` on the module tokens is modelled as the module body being the empty sequence.
- `to_snake_case` and `to_pascal_case` of the `inflector` crate are not modelled. That crate is not part of this model. Both conversions are parameters, and nothing is assumed about them.
- `format_ident!` panics when a name is not a valid Rust identifier, for example when it is empty or starts with a digit. That panic is not modelled: every name is accepted.
- The runtime behaviour of the generated `serde::Serialize` impl is not modelled. Only the order of its types and values is.
- `IApiSpecDoc::parse` and the JSON test fixture (lib.rs:199-264) are not modelled, because the parser is in another crate. The fixture's three types `error`, `callOne` and `callTwo`, and the `sub` struct nested in `callTwo`, appear only as the inputs of the `CodegenExamples` lemmas `TestDocumentError`, `TestDocumentCallOne`, `TestDocumentCallTwo` and `TestDocumentSub`.
- `src/util.rs` is not modelled. Its newtype wrappers and macros only forward to `quote`'s `ToTokens`.
- The specification crate's `Type` is not part of this model. Every variant beyond the five known ones is collapsed into `Other(doc)`.
- `index` is modelled as a natural number and rendered in decimal without a sign.
- The `types` map and each struct's `content` map are modelled as sequences of (name, value) pairs in the map's iteration order. Duplicate names are not ruled out.
- Codegen.SortEntries: the clone-and-sort-in-place of lib.rs:84-85 and lib.rs:112-113 is modelled as a function that returns a sorted copy, because `gen_one_type` is modelled as a function. The order among equal indices is the one the model's insertion sort happens to produce. Rust's unstable sort leaves that order unspecified. The contract of `SortByKey` promises only sortedness and permutation. The lemmas that fix an order, `SortSortedIdentity` and `SortTwo`, require distinct indices.
- Codegen.SortFields: modelled in the same way as `SortEntries`.

=== FILE: codegen.dfy ===
/** The type-declaration generator: the primitive check, the recursive
    generation of one type and the top-level loop over the specification's
    `types` map. */
module Codegen {
  import opened Wrappers
  import opened SpecModel
  import opened Naming
  import opened Sorting
  import opened Declarations

  /** The leaf test used to inline a slot or field: a primitive kind for
      exactly the three primitive variants, none for anything else. */
  function CheckGenPrimitive(ty: Type): (r: Option<Primitive>)
    ensures r.Some? <==> (ty.Bool? || ty.U32? || ty.Str?)
    ensures r == Some(BoolKind) <==> ty.Bool?
    ensures r == Some(U32Kind) <==> ty.U32?
    ensures r == Some(StringKind) <==> ty.Str?
  {
    match ty
    case Bool(_) => Some(BoolKind)
    case U32(_) => Some(U32Kind)
    case Str(_) => Some(StringKind)
    case _ => None
  }

  /** A tuple's entries, sorted by index: a permutation of the entries,
      in ascending index order. */
  function SortEntries(content: seq<Entry>): (es: seq<Entry>)
    ensures SortedByKey(es, EntryIndex)
    ensures multiset(es) == multiset(content)
    ensures forall e | e in es :: e in content
  {
    var es := SortByKey(content, EntryIndex);
    PermutationMembers(es, content);
    es
  }

  /** A struct's fields, sorted by the index of their entries: a permutation
      of the fields, in ascending index order. */
  function SortFields(fields: seq<(string, Entry)>): (fs: seq<(string, Entry)>)
    ensures SortedByKey(fs, FieldIndex)
    ensures multiset(fs) == multiset(fields)
    ensures forall f | f in fs :: f in fields
  {
    var fs := SortByKey(fields, FieldIndex);
    PermutationMembers(fs, fields);
    fs
  }

  /** The type written for a nested type: inlined when primitive, otherwise
      a path to the child declaration `childName` in the module `modName`. */
  function EntryRef(modName: string, childName: string, t: Type): TypeRef
  {
    match CheckGenPrimitive(t)
    case Some(p) => Inline(p)
    case None => Path(modName, childName)
  }

  /** The tokens a nested type adds to its parent's module: nothing when it
      is inlined, its own generated output otherwise. */
  function ChildOutput(inf: Inflector, childName: string, t: Type): seq<Node>
    decreases t, 3, 0
  {
    if CheckGenPrimitive(t).Some? then [] else GenOneType(inf, childName, t)
  }

  /** The module holding `body`, omitted when nothing was generated. */
  function ModuleIfAny(modName: string, body: seq<Node>): seq<Node>
  {
    if body == [] then [] else [Module(modName, body)]
  }

  function TupleSlots(name: string, modName: string, es: seq<Entry>): seq<Slot>
  {
    seq(|es|, k requires 0 <= k < |es| =>
      Slot(DocText(es[k].content.doc), EntryRef(modName, TupleChildName(name, es[k].index), es[k].content)))
  }

  /** The children generated for the (sorted) tuple entries `es`, in order. */
  function TupleChildren(inf: Inflector, name: string, ghost parent: Type, es: seq<Entry>): seq<Node>
    requires parent.Tuple? && forall e | e in es :: e in parent.content
    decreases parent, 1, |es|
  {
    if es == [] then []
    else
      assert es[0] in parent.content;
      ChildOutput(inf, TupleChildName(name, es[0].index), es[0].content)
        + TupleChildren(inf, name, parent, es[1..])
  }

  function StructFieldDecls(inf: Inflector, modName: string, fs: seq<(string, Entry)>): seq<Field>
  {
    seq(|fs|, k requires 0 <= k < |fs| =>
      Field(DocText(fs[k].1.content.doc), FieldIdent(inf, fs[k].0),
            EntryRef(modName, StructChildName(inf, fs[k].0), fs[k].1.content)))
  }

  /** The serializer is built from the declared fields themselves. */
  function SerializerFor(fields: seq<Field>): Serializer
  {
    Serializer(seq(|fields|, k requires 0 <= k < |fields| => fields[k].ty),
               seq(|fields|, k requires 0 <= k < |fields| => fields[k].ident))
  }

  /** The children generated for the (sorted) struct fields `fs`, in order. */
  function StructChildren(inf: Inflector, ghost parent: Type, fs: seq<(string, Entry)>): seq<Node>
    requires parent.Struct? && forall f | f in fs :: f in parent.fields
    decreases parent, 1, |fs|
  {
    if fs == [] then []
    else
      assert fs[0] in parent.fields;
      ChildOutput(inf, StructChildName(inf, fs[0].0), fs[0].1.content)
        + StructChildren(inf, parent, fs[1..])
  }

  /** The output for one named type: the module of its children, if any,
      followed by its own item. */
  function GenOneType(inf: Inflector, name: string, ty: Type): seq<Node>
    decreases ty, 2, 0
  {
    var modName := ModuleName(inf, name);
    match ty
    case Bool(doc) => [Decl(Alias(name, DocText(doc), BoolKind))]
    case U32(doc) => [Decl(Alias(name, DocText(doc), U32Kind))]
    case Str(doc) => [Decl(Alias(name, DocText(doc), BoolKind))]
    case Tuple(doc, content) =>
      var es := SortEntries(content);
      ModuleIfAny(modName, TupleChildren(inf, name, ty, es))
        + [Decl(TupleAlias(name, DocText(doc), TupleSlots(name, modName, es)))]
    case Struct(doc, fields) =>
      var fs := SortFields(fields);
      var decls := StructFieldDecls(inf, modName, fs);
      ModuleIfAny(modName, StructChildren(inf, ty, fs))
        + [Decl(StructDecl(name, DocText(doc), decls, SerializerFor(decls)))]
    case Other(_) => []
  }

  /** The output for the top-level entries `types`, taken in the map's
      iteration order, each under its pascal-cased name. */
  function AllTypes(inf: Inflector, types: seq<(string, Type)>): seq<Node>
  {
    if types == [] then []
    else
      var last := types[|types| - 1];
      AllTypes(inf, types[..|types| - 1]) + GenOneType(inf, inf.toPascalCase(last.0), last.1)
  }

  /** Generates the declarations of every top-level type, appending each
      type's output to the accumulated tokens. */
  method GenerateTypes(inf: Inflector, types: seq<(string, Type)>) returns (tokens: seq<Node>)
    ensures tokens == AllTypes(inf, types)
  {
    tokens := [];
    for i := 0 to |types|
      invariant tokens == AllTypes(inf, types[..i])
    {
      var (name, ty) := types[i];
      var res := GenOneType(inf, inf.toPascalCase(name), ty);
      tokens := tokens + res;
      assert types[..i + 1][..i] == types[..i];
    }
    assert types[..|types|] == types;
  }
}

=== FILE: codegen_examples.dfy ===
/** Concrete generations: a struct whose fields are listed out of index
    order, the repository's own test document (lib.rs:199-264), and an
    entry of unknown variant inside a tuple. The docs of
    the leaf entries are parameters, so each lemma holds for the test document's
    own docs and for any other docs on the same shape. */
module CodegenExamples {
  import opened Wrappers
  import opened SpecModel
  import opened Naming
  import opened Sorting
  import opened Declarations
  import opened Codegen
  import opened CodegenProperties

  // ---------------------------------------------------------------------
  // Assembly steps

  /** A tuple none of whose entries generated anything is the alias alone. */
  lemma TupleWithoutChildren(inf: Inflector, name: string, doc: Option<string>, content: seq<Entry>)
    requires TupleChildren(inf, name, Tuple(doc, content), SortEntries(content)) == []
    ensures GenOneType(inf, name, Tuple(doc, content))
      == [Decl(TupleAlias(name, DocText(doc), TupleSlots(name, ModuleName(inf, name), SortEntries(content))))]
  {
    TupleUnfold(inf, name, doc, content);
  }

  /** A struct none of whose fields generated anything is the struct alone. */
  lemma StructWithoutChildren(inf: Inflector, name: string, doc: Option<string>, fields: seq<(string, Entry)>)
    requires StructChildren(inf, Struct(doc, fields), SortFields(fields)) == []
    ensures
      var decls := StructFieldDecls(inf, ModuleName(inf, name), SortFields(fields));
      GenOneType(inf, name, Struct(doc, fields)) == [Decl(StructDecl(name, DocText(doc), decls, SerializerFor(decls)))]
  {
    StructUnfold(inf, name, doc, fields);
  }

  /** A struct whose children's output is a single node is that node's
      module followed by the struct. */
  lemma StructWithOneChild(inf: Inflector, name: string, doc: Option<string>, fields: seq<(string, Entry)>)
    requires |StructChildren(inf, Struct(doc, fields), SortFields(fields))| == 1
    ensures
      var decls := StructFieldDecls(inf, ModuleName(inf, name), SortFields(fields));
      GenOneType(inf, name, Struct(doc, fields))
      == [Module(ModuleName(inf, name), StructChildren(inf, Struct(doc, fields), SortFields(fields))),
          Decl(StructDecl(name, DocText(doc), decls, SerializerFor(decls)))]
  {
    StructUnfold(inf, name, doc, fields);
  }

  /** Two primitive fields generate no children. */
  lemma PrimitiveFieldsNoChildren(inf: Inflector, parent: Type, x: (string, Entry), y: (string, Entry))
    requires parent.Struct? && x in parent.fields && y in parent.fields
    requires CheckGenPrimitive(x.1.content).Some? && CheckGenPrimitive(y.1.content).Some?
    ensures StructChildren(inf, parent, [x, y]) == []
  {
    assert [x, y][1..] == [y];
    assert StructChildren(inf, parent, [y]) == [] by {
      assert [y][1..] == [];
    }
  }

  /** Two primitive entries generate no children. */
  lemma PrimitiveEntriesNoChildren(inf: Inflector, name: string, parent: Type, x: Entry, y: Entry)
    requires parent.Tuple? && x in parent.content && y in parent.content
    requires CheckGenPrimitive(x.content).Some? && CheckGenPrimitive(y.content).Some?
    ensures TupleChildren(inf, name, parent, [x, y]) == []
  {
    assert [x, y][1..] == [y];
    assert TupleChildren(inf, name, parent, [y]) == [] by {
      assert [y][1..] == [];
    }
  }

  /** Two primitive fields followed by a third generate the third's output
      alone. */
  lemma PrimitiveFieldsThenChild(inf: Inflector, parent: Type, x: (string, Entry), y: (string, Entry), z: (string, Entry))
    requires parent.Struct? && x in parent.fields && y in parent.fields && z in parent.fields
    requires CheckGenPrimitive(x.1.content).Some? && CheckGenPrimitive(y.1.content).Some?
    ensures StructChildren(inf, parent, [x, y, z]) == ChildOutput(inf, StructChildName(inf, z.0), z.1.content)
  {
    assert [x, y, z][1..] == [y, z];
    assert [y, z][1..] == [z];
    var out := ChildOutput(inf, StructChildName(inf, z.0), z.1.content);
    assert StructChildren(inf, parent, [z]) == out by {
      assert [z][1..] == [];
    }
    assert StructChildren(inf, parent, [y, z]) == out;
  }

  /** The slots of a two-entry tuple, one per entry. */
  lemma TwoSlots(name: string, modName: string, e0: Entry, e1: Entry)
    ensures TupleSlots(name, modName, [e0, e1])
      == [Slot(DocText(e0.content.doc), EntryRef(modName, TupleChildName(name, e0.index), e0.content)),
          Slot(DocText(e1.content.doc), EntryRef(modName, TupleChildName(name, e1.index), e1.content))]
  {
  }

  /** The declarations of two fields, one per field. */
  lemma TwoFieldDecls(inf: Inflector, modName: string, f0: (string, Entry), f1: (string, Entry))
    ensures StructFieldDecls(inf, modName, [f0, f1])
      == [Field(DocText(f0.1.content.doc), FieldIdent(inf, f0.0), EntryRef(modName, StructChildName(inf, f0.0), f0.1.content)),
          Field(DocText(f1.1.content.doc), FieldIdent(inf, f1.0), EntryRef(modName, StructChildName(inf, f1.0), f1.1.content))]
  {
  }

  /** The declarations of three fields, one per field. */
  lemma ThreeFieldDecls(inf: Inflector, modName: string, f0: (string, Entry), f1: (string, Entry), f2: (string, Entry))
    ensures StructFieldDecls(inf, modName, [f0, f1, f2])
      == [Field(DocText(f0.1.content.doc), FieldIdent(inf, f0.0), EntryRef(modName, StructChildName(inf, f0.0), f0.1.content)),
          Field(DocText(f1.1.content.doc), FieldIdent(inf, f1.0), EntryRef(modName, StructChildName(inf, f1.0), f1.1.content)),
          Field(DocText(f2.1.content.doc), FieldIdent(inf, f2.0), EntryRef(modName, StructChildName(inf, f2.0), f2.1.content))]
  {
  }

  lemma TwoFieldSerializer(x: Field, y: Field)
    ensures SerializerFor([x, y]) == Serializer([x.ty, y.ty], [x.ident, y.ident])
  {
  }

  lemma ThreeFieldSerializer(x: Field, y: Field, z: Field)
    ensures SerializerFor([x, y, z]) == Serializer([x.ty, y.ty, z.ty], [x.ident, y.ident, z.ident])
  {
  }

  // ---------------------------------------------------------------------
  // Field order

  /** Fields `a` (index 1) and `b` (index 0) are declared and serialized
      with `b` first, and no module is generated. */
  lemma FieldOrderExample(inf: Inflector, aDoc: Option<string>, bDoc: Option<string>)
    ensures GenOneType(inf, "T", Struct(None, [("a", Entry(1, Bool(aDoc))), ("b", Entry(0, U32(bDoc)))]))
      == [Decl(StructDecl("T", "",
                          [Field(DocText(bDoc), inf.toSnakeCase("b"), Inline(U32Kind)),
                           Field(DocText(aDoc), inf.toSnakeCase("a"), Inline(BoolKind))],
                          Serializer([Inline(U32Kind), Inline(BoolKind)], [inf.toSnakeCase("b"), inf.toSnakeCase("a")])))]
  {
    var a, b := ("a", Entry(1, Bool(aDoc))), ("b", Entry(0, U32(bDoc)));
    SortTwo(a, b, FieldIndex);
    PrimitiveFieldsNoChildren(inf, Struct(None, [a, b]), b, a);
    FieldOrderDecls(inf, aDoc, bDoc);
    StructWithoutChildren(inf, "T", None, [a, b]);
  }

  lemma FieldOrderDecls(inf: Inflector, aDoc: Option<string>, bDoc: Option<string>)
    ensures
      var decls := StructFieldDecls(inf, ModuleName(inf, "T"), [("b", Entry(0, U32(bDoc))), ("a", Entry(1, Bool(aDoc)))]);
      && decls == [Field(DocText(bDoc), inf.toSnakeCase("b"), Inline(U32Kind)),
                   Field(DocText(aDoc), inf.toSnakeCase("a"), Inline(BoolKind))]
      && SerializerFor(decls) == Serializer([Inline(U32Kind), Inline(BoolKind)], [inf.toSnakeCase("b"), inf.toSnakeCase("a")])
  {
  }

  // ---------------------------------------------------------------------
  // An unknown variant inside a tuple

  /** A tuple whose only slot is of an unknown variant refers to the child
      `snake(name)::name0`, yet nothing declares it and no module is
      generated: the reference dangles. */
  lemma UnknownSlotDangles(inf: Inflector, name: string, doc: Option<string>)
    ensures GenOneType(inf, name, Tuple(None, [Entry(0, Other(doc))]))
      == [Decl(TupleAlias(name, "", [Slot(DocText(doc), Path(inf.toSnakeCase(name), name + "0"))]))]
  {
    var e := Entry(0, Other(doc));
    assert SortEntries([e]) == [e] by {
      assert [e][1..] == [];
    }
    assert TupleChildren(inf, name, Tuple(None, [e]), [e]) == [] by {
      assert [e][1..] == [];
      assert ChildOutput(inf, TupleChildName(name, 0), Other(doc)) == [];
    }
    assert TupleSlots(name, ModuleName(inf, name), [e])
      == [Slot(DocText(doc), Path(inf.toSnakeCase(name), name + "0"))] by {
      assert Decimal(0) == "0";
    }
    TupleWithoutChildren(inf, name, None, [e]);
  }

  // ---------------------------------------------------------------------
  // The repository's test document

  /** The tuple `callOne` of the test document is a tuple of `bool` and
      `u32` with no module. */
  lemma TestDocumentCallOne(inf: Inflector, name: string, firstDoc: Option<string>, secondDoc: Option<string>)
    ensures GenOneType(inf, name, Tuple(Some("a tuple type"), [Entry(0, Bool(firstDoc)), Entry(1, U32(secondDoc))]))
      == [Decl(TupleAlias(name, "a tuple type",
                          [Slot(DocText(firstDoc), Inline(BoolKind)), Slot(DocText(secondDoc), Inline(U32Kind))]))]
  {
    var e0, e1 := Entry(0, Bool(firstDoc)), Entry(1, U32(secondDoc));
    SortTwo(e0, e1, EntryIndex);
    PrimitiveEntriesNoChildren(inf, name, Tuple(Some("a tuple type"), [e0, e1]), e0, e1);
    TwoSlots(name, ModuleName(inf, name), e0, e1);
    TupleWithoutChildren(inf, name, Some("a tuple type"), [e0, e1]);
  }

  /** `error` from the test document is a string type, so it becomes an
      alias of `bool` with its doc, and no module. */
  lemma TestDocumentError(inf: Inflector, name: string)
    ensures GenOneType(inf, name, Str(Some("error type"))) == [Decl(Alias(name, "error type", BoolKind))]
  {
  }

  /** The `sub` struct nested in `callTwo`. */
  function CallTwoSub(yayDoc: Option<string>, ageDoc: Option<string>): Type
  {
    Struct(Some("a sub struct"), [("yay", Entry(0, Bool(yayDoc))), ("age", Entry(1, U32(ageDoc)))])
  }

  /** The fields of `callTwo`, in the fixture's order. */
  function CallTwoFields(yayDoc: Option<string>, ageDoc: Option<string>): seq<(string, Entry)>
  {
    [("yay", Entry(0, Bool(yayDoc))), ("age", Entry(1, U32(ageDoc))), ("sub", Entry(2, CallTwoSub(yayDoc, ageDoc)))]
  }

  /** The sub struct of `callTwo`: two primitive fields, no module. */
  lemma TestDocumentSub(inf: Inflector, name: string, yayDoc: Option<string>, ageDoc: Option<string>)
    ensures GenOneType(inf, name, CallTwoSub(yayDoc, ageDoc))
      == [Decl(StructDecl(name, "a sub struct",
                          [Field(DocText(yayDoc), inf.toSnakeCase("yay"), Inline(BoolKind)),
                           Field(DocText(ageDoc), inf.toSnakeCase("age"), Inline(U32Kind))],
                          Serializer([Inline(BoolKind), Inline(U32Kind)], [inf.toSnakeCase("yay"), inf.toSnakeCase("age")])))]
  {
    var yay, age := ("yay", Entry(0, Bool(yayDoc))), ("age", Entry(1, U32(ageDoc)));
    SortTwo(yay, age, FieldIndex);
    PrimitiveFieldsNoChildren(inf, CallTwoSub(yayDoc, ageDoc), yay, age);
    TwoFieldDecls(inf, ModuleName(inf, name), yay, age);
    TwoFieldSerializer(Field(DocText(yayDoc), inf.toSnakeCase("yay"), Inline(BoolKind)),
                       Field(DocText(ageDoc), inf.toSnakeCase("age"), Inline(U32Kind)));
    StructWithoutChildren(inf, name, Some("a sub struct"), [yay, age]);
  }

  /** `callTwo` is already in index order. */
  lemma CallTwoSorted(yayDoc: Option<string>, ageDoc: Option<string>)
    ensures SortFields(CallTwoFields(yayDoc, ageDoc)) == CallTwoFields(yayDoc, ageDoc)
  {
    var fs := CallTwoFields(yayDoc, ageDoc);
    assert |fs| == 3 && FieldIndex(fs[0]) == 0 && FieldIndex(fs[1]) == 1 && FieldIndex(fs[2]) == 2;
    forall i, j | 0 <= i < j < |fs|
      ensures FieldIndex(fs[i]) < FieldIndex(fs[j])
    {
      assert FieldIndex(fs[i]) == i && FieldIndex(fs[j]) == j;
    }
    SortSortedIdentity(fs, FieldIndex);
  }

  /** The children of `callTwo`: the output of its `sub` struct alone. */
  lemma CallTwoModuleBody(inf: Inflector, ty: Type, yayDoc: Option<string>, ageDoc: Option<string>)
    requires ty == Struct(Some("a struct type"), CallTwoFields(yayDoc, ageDoc))
    ensures StructChildren(inf, ty, CallTwoFields(yayDoc, ageDoc))
      == GenOneType(inf, inf.toPascalCase("sub"), CallTwoSub(yayDoc, ageDoc))
  {
    var fs := CallTwoFields(yayDoc, ageDoc);
    PrimitiveFieldsThenChild(inf, ty, fs[0], fs[1], fs[2]);
  }

  /** The fields of `callTwo` in index order, and its serializer. */
  lemma CallTwoFieldDecls(inf: Inflector, name: string, yayDoc: Option<string>, ageDoc: Option<string>)
    ensures
      var subRef := Path(inf.toSnakeCase(name), inf.toPascalCase("sub"));
      var decls := StructFieldDecls(inf, ModuleName(inf, name), CallTwoFields(yayDoc, ageDoc));
      && decls == [Field(DocText(yayDoc), inf.toSnakeCase("yay"), Inline(BoolKind)),
                   Field(DocText(ageDoc), inf.toSnakeCase("age"), Inline(U32Kind)),
                   Field("a sub struct", inf.toSnakeCase("sub"), subRef)]
      && SerializerFor(decls) == Serializer([Inline(BoolKind), Inline(U32Kind), subRef],
                                            [inf.toSnakeCase("yay"), inf.toSnakeCase("age"), inf.toSnakeCase("sub")])
  {
    var fs := CallTwoFields(yayDoc, ageDoc);
    ThreeFieldDecls(inf, ModuleName(inf, name), fs[0], fs[1], fs[2]);
    ThreeFieldSerializer(Field(DocText(yayDoc), inf.toSnakeCase("yay"), Inline(BoolKind)),
                         Field(DocText(ageDoc), inf.toSnakeCase("age"), Inline(U32Kind)),
                         Field("a sub struct", inf.toSnakeCase("sub"), Path(inf.toSnakeCase(name), inf.toPascalCase("sub"))));
  }

  /** The struct `callTwo` of the test document, generated under the name
      `name`: fields `yay`, `age` and `sub` in index order, `sub` referring
      to `snake(name)::Pascal(sub)`, which the module before the struct
      declares. */
  lemma TestDocumentCallTwo(inf: Inflector, name: string, yayDoc: Option<string>, ageDoc: Option<string>)
    ensures
      var yay := Field(DocText(yayDoc), inf.toSnakeCase("yay"), Inline(BoolKind));
      var age := Field(DocText(ageDoc), inf.toSnakeCase("age"), Inline(U32Kind));
      var subRef := Path(inf.toSnakeCase(name), inf.toPascalCase("sub"));
      var subField := Field("a sub struct", inf.toSnakeCase("sub"), subRef);
      GenOneType(inf, name, Struct(Some("a struct type"), CallTwoFields(yayDoc, ageDoc)))
      == [Module(inf.toSnakeCase(name),
                 [Decl(StructDecl(inf.toPascalCase("sub"), "a sub struct", [yay, age],
                                  Serializer([Inline(BoolKind), Inline(U32Kind)], [yay.ident, age.ident])))]),
          Decl(StructDecl(name, "a struct type", [yay, age, subField],
                          Serializer([Inline(BoolKind), Inline(U32Kind), subRef], [yay.ident, age.ident, subField.ident])))]
  {
    var ty := Struct(Some("a struct type"), CallTwoFields(yayDoc, ageDoc));
    CallTwoSorted(yayDoc, ageDoc);
    CallTwoModuleBody(inf, ty, yayDoc, ageDoc);
    TestDocumentSub(inf, inf.toPascalCase("sub"), yayDoc, ageDoc);
    CallTwoFieldDecls(inf, name, yayDoc, ageDoc);
    StructWithOneChild(inf, name, Some("a struct type"), CallTwoFields(yayDoc, ageDoc));
  }
}

=== FILE: codegen_properties.dfy ===
/** What the generator promises: the shape of each output, the order of
    slots and fields, where children are declared and how they are named,
    and the top-level concatenation. */
module CodegenProperties {
  import opened Wrappers
  import opened SpecModel
  import opened Naming
  import opened Sorting
  import opened Declarations
  import opened Codegen

  /** Some entry of a tuple is itself a tuple or a struct. */
  predicate HasCompositeEntry(content: seq<Entry>)
  {
    exists e :: e in content && IsComposite(e.content)
  }

  /** Some field of a struct is itself a tuple or a struct. */
  predicate HasCompositeField(fields: seq<(string, Entry)>)
  {
    exists f :: f in fields && IsComposite(f.1.content)
  }

  /** The names a tuple's child module must declare: one per composite
      entry, in the order of `es`. */
  function TupleChildNames(name: string, es: seq<Entry>): seq<string>
  {
    if es == [] then []
    else (if IsComposite(es[0].content) then [TupleChildName(name, es[0].index)] else [])
         + TupleChildNames(name, es[1..])
  }

  /** The names a struct's child module must declare: one per composite
      field, in the order of `fs`. */
  function StructChildNames(inf: Inflector, fs: seq<(string, Entry)>): seq<string>
  {
    if fs == [] then []
    else (if IsComposite(fs[0].1.content) then [StructChildName(inf, fs[0].0)] else [])
         + StructChildNames(inf, fs[1..])
  }

  /** The items a tuple's child module must declare: for each composite
      entry of `es`, in order, the item generated recursively from that
      entry's type under the name `name<index>`. */
  function TupleChildItems(inf: Inflector, name: string, es: seq<Entry>): seq<Item>
  {
    if es == [] then []
    else (if IsComposite(es[0].content)
          then DeclaredItems(GenOneType(inf, TupleChildName(name, es[0].index), es[0].content))
          else [])
         + TupleChildItems(inf, name, es[1..])
  }

  /** The items a struct's child module must declare: for each composite
      field of `fs`, in order, the item generated recursively from that
      field's type under the name `Pascal(field)`. */
  function StructChildItems(inf: Inflector, fs: seq<(string, Entry)>): seq<Item>
  {
    if fs == [] then []
    else (if IsComposite(fs[0].1.content)
          then DeclaredItems(GenOneType(inf, StructChildName(inf, fs[0].0), fs[0].1.content))
          else [])
         + StructChildItems(inf, fs[1..])
  }

  /** The whole body a tuple's child module must hold: for each composite
      entry of `es`, in order, the complete output generated for that
      entry's type under `name<index>`, its own module included. */
  function TupleChildOutputs(inf: Inflector, name: string, es: seq<Entry>): seq<Node>
  {
    if es == [] then []
    else (if IsComposite(es[0].content)
          then GenOneType(inf, TupleChildName(name, es[0].index), es[0].content)
          else [])
         + TupleChildOutputs(inf, name, es[1..])
  }

  /** The whole body a struct's child module must hold: for each composite
      field of `fs`, in order, the complete output generated for that
      field's type under `Pascal(field)`, its own module included. */
  function StructChildOutputs(inf: Inflector, fs: seq<(string, Entry)>): seq<Node>
  {
    if fs == [] then []
    else (if IsComposite(fs[0].1.content)
          then GenOneType(inf, StructChildName(inf, fs[0].0), fs[0].1.content)
          else [])
         + StructChildOutputs(inf, fs[1..])
  }

  /** The type written for a slot or field whose nested type is `t`. */
  function ExpectedRef(modName: string, childName: string, t: Type): TypeRef
  {
    if t.Bool? then Inline(BoolKind)
    else if t.U32? then Inline(U32Kind)
    else if t.Str? then Inline(StringKind)
    else Path(modName, childName)
  }

  // ---------------------------------------------------------------------
  // The shape of one output

  /** Every output is empty for an unknown variant and otherwise one item
      named after the type and carrying its documentation (empty when
      missing), preceded by at most one module: the non-empty module named
      after the snake-cased type. */
  lemma OutputShape(inf: Inflector, name: string, ty: Type)
    ensures var out := GenOneType(inf, name, ty);
      && (out == [] <==> ty.Other?)
      && |out| <= 2
      && (out != [] ==>
            && out[|out| - 1].Decl?
            && out[|out| - 1].item.name == name
            && out[|out| - 1].item.doc == DocText(ty.doc)
            && (ty.doc.None? ==> out[|out| - 1].item.doc == ""))
      && (|out| == 2 ==> out[0].Module? && out[0].name == ModuleName(inf, name) && out[0].body != [])
  {
  }

  /** At the top level Bool aliases `bool`, U32 aliases `u32`, and String
      aliases `bool` as well; none of them has a module. */
  lemma PrimitiveAliases(inf: Inflector, name: string, doc: Option<string>)
    ensures GenOneType(inf, name, Bool(doc)) == [Decl(Alias(name, DocText(doc), BoolKind))]
    ensures GenOneType(inf, name, U32(doc)) == [Decl(Alias(name, DocText(doc), U32Kind))]
    ensures GenOneType(inf, name, Str(doc)) == [Decl(Alias(name, DocText(doc), BoolKind))]
  {
  }

  /** A String nested in a tuple or struct is written as `String`, but a
      top-level String type aliases `bool`: the two disagree. */
  lemma StringAliasDisagreesWithInlining(inf: Inflector, name: string, doc: Option<string>,
                                         modName: string, childName: string)
    ensures EntryRef(modName, childName, Str(doc)) == Inline(StringKind)
    ensures GenOneType(inf, name, Str(doc))[0].item.target == BoolKind
    ensures GenOneType(inf, name, Str(doc))[0].item.target != StringKind
  {
  }

  // ---------------------------------------------------------------------
  // Children and their names

  /** A module (if any) followed by one item declares just that item. */
  lemma ModuleThenItemDeclares(modName: string, body: seq<Node>, item: Item)
    ensures DeclaredNames(ModuleIfAny(modName, body) + [Decl(item)]) == [item.name]
    ensures DeclaredItems(ModuleIfAny(modName, body) + [Decl(item)]) == [item]
  {
    DeclaredNamesAppend(ModuleIfAny(modName, body), [Decl(item)]);
    DeclaredItemsAppend(ModuleIfAny(modName, body), [Decl(item)]);
    assert DeclaredNames([Decl(item)]) == [item.name];
    assert DeclaredItems([Decl(item)]) == [item];
    if body != [] {
      assert DeclaredNames([Module(modName, body)]) == [];
      assert DeclaredItems([Module(modName, body)]) == [];
    }
  }

  /** One output declares, at its own level, exactly its final item, under
      the name it was given; an unknown variant declares nothing. */
  lemma GenOneTypeDeclares(inf: Inflector, name: string, ty: Type)
    ensures DeclaredNames(GenOneType(inf, name, ty)) == if ty.Other? then [] else [name]
    ensures var out := GenOneType(inf, name, ty);
      if ty.Other? then DeclaredItems(out) == []
      else out != [] && out[|out| - 1].Decl? && DeclaredItems(out) == [out[|out| - 1].item]
  {
    match ty
    case Tuple(doc, content) =>
      TupleUnfold(inf, name, doc, content);
      var es := SortEntries(content);
      ModuleThenItemDeclares(ModuleName(inf, name), TupleChildren(inf, name, ty, es),
                             TupleAlias(name, DocText(doc), TupleSlots(name, ModuleName(inf, name), es)));
    case Struct(doc, fields) =>
      StructUnfold(inf, name, doc, fields);
      var fs := SortFields(fields);
      var decls := StructFieldDecls(inf, ModuleName(inf, name), fs);
      ModuleThenItemDeclares(ModuleName(inf, name), StructChildren(inf, ty, fs),
                             StructDecl(name, DocText(doc), decls, SerializerFor(decls)));
    case Other(_) =>
    case _ =>
      var out := GenOneType(inf, name, ty);
      assert DeclaredNames(out) == [name];
      assert DeclaredItems(out) == [out[0].item];
  }

  /** A slot adds to the parent's module the whole output generated for
      its nested type (that type's own module included) when the type is
      composite, and nothing otherwise. */
  lemma ChildOutputWhole(inf: Inflector, childName: string, t: Type)
    ensures ChildOutput(inf, childName, t) == if IsComposite(t) then GenOneType(inf, childName, t) else []
  {
  }

  /** The item a slot contributes to the parent's module is the item
      generated for its nested type, when that type is composite. */
  lemma ChildOutputItems(inf: Inflector, childName: string, t: Type)
    ensures DeclaredItems(ChildOutput(inf, childName, t))
      == if IsComposite(t) then DeclaredItems(GenOneType(inf, childName, t)) else []
  {
    if CheckGenPrimitive(t).None? && !IsComposite(t) {
      assert GenOneType(inf, childName, t) == [];
    }
  }

  lemma ChildOutputDeclares(inf: Inflector, childName: string, t: Type)
    ensures DeclaredNames(ChildOutput(inf, childName, t)) == if IsComposite(t) then [childName] else []
  {
    if CheckGenPrimitive(t).None? {
      GenOneTypeDeclares(inf, childName, t);
    }
  }

  /** A tuple's child module declares exactly one item per composite entry,
      named after that entry, in the order of the sorted entries. */
  lemma {:induction false} TupleChildrenDeclare(inf: Inflector, name: string, parent: Type, es: seq<Entry>)
    requires parent.Tuple? && forall e | e in es :: e in parent.content
    ensures DeclaredNames(TupleChildren(inf, name, parent, es)) == TupleChildNames(name, es)
  {
    if es != [] {
      var head := ChildOutput(inf, TupleChildName(name, es[0].index), es[0].content);
      DeclaredNamesAppend(head, TupleChildren(inf, name, parent, es[1..]));
      ChildOutputDeclares(inf, TupleChildName(name, es[0].index), es[0].content);
      TupleChildrenDeclare(inf, name, parent, es[1..]);
    }
  }

  /** A struct's child module declares exactly one item per composite field,
      named after that field, in the order of the sorted fields. */
  lemma {:induction false} StructChildrenDeclare(inf: Inflector, parent: Type, fs: seq<(string, Entry)>)
    requires parent.Struct? && forall f | f in fs :: f in parent.fields
    ensures DeclaredNames(StructChildren(inf, parent, fs)) == StructChildNames(inf, fs)
  {
    if fs != [] {
      var head := ChildOutput(inf, StructChildName(inf, fs[0].0), fs[0].1.content);
      DeclaredNamesAppend(head, StructChildren(inf, parent, fs[1..]));
      ChildOutputDeclares(inf, StructChildName(inf, fs[0].0), fs[0].1.content);
      StructChildrenDeclare(inf, parent, fs[1..]);
    }
  }

  /** A tuple's child module holds, in the order of the sorted entries,
      the complete output of each composite entry and nothing else. */
  lemma {:induction false} TupleChildrenOutputs(inf: Inflector, name: string, parent: Type, es: seq<Entry>)
    requires parent.Tuple? && forall e | e in es :: e in parent.content
    ensures TupleChildren(inf, name, parent, es) == TupleChildOutputs(inf, name, es)
  {
    if es != [] {
      ChildOutputWhole(inf, TupleChildName(name, es[0].index), es[0].content);
      TupleChildrenOutputs(inf, name, parent, es[1..]);
    }
  }

  /** A struct's child module holds, in the order of the sorted fields, the
      complete output of each composite field and nothing else. */
  lemma {:induction false} StructChildrenOutputs(inf: Inflector, parent: Type, fs: seq<(string, Entry)>)
    requires parent.Struct? && forall f | f in fs :: f in parent.fields
    ensures StructChildren(inf, parent, fs) == StructChildOutputs(inf, fs)
  {
    if fs != [] {
      ChildOutputWhole(inf, StructChildName(inf, fs[0].0), fs[0].1.content);
      StructChildrenOutputs(inf, parent, fs[1..]);
    }
  }

  /** A tuple's child module declares, in the order of the sorted entries,
      the item generated recursively for each composite entry. */
  lemma {:induction false} TupleChildrenItems(inf: Inflector, name: string, parent: Type, es: seq<Entry>)
    requires parent.Tuple? && forall e | e in es :: e in parent.content
    ensures DeclaredItems(TupleChildren(inf, name, parent, es)) == TupleChildItems(inf, name, es)
  {
    if es != [] {
      var head := ChildOutput(inf, TupleChildName(name, es[0].index), es[0].content);
      DeclaredItemsAppend(head, TupleChildren(inf, name, parent, es[1..]));
      ChildOutputItems(inf, TupleChildName(name, es[0].index), es[0].content);
      TupleChildrenItems(inf, name, parent, es[1..]);
    }
  }

  /** A struct's child module declares, in the order of the sorted fields,
      the item generated recursively for each composite field. */
  lemma {:induction false} StructChildrenItems(inf: Inflector, parent: Type, fs: seq<(string, Entry)>)
    requires parent.Struct? && forall f | f in fs :: f in parent.fields
    ensures DeclaredItems(StructChildren(inf, parent, fs)) == StructChildItems(inf, fs)
  {
    if fs != [] {
      var head := ChildOutput(inf, StructChildName(inf, fs[0].0), fs[0].1.content);
      DeclaredItemsAppend(head, StructChildren(inf, parent, fs[1..]));
      ChildOutputItems(inf, StructChildName(inf, fs[0].0), fs[0].1.content);
      StructChildrenItems(inf, parent, fs[1..]);
    }
  }

  lemma ChildOutputEmpty(inf: Inflector, childName: string, t: Type)
    ensures ChildOutput(inf, childName, t) == [] <==> !IsComposite(t)
  {
    if CheckGenPrimitive(t).None? {
      OutputShape(inf, childName, t);
    }
  }

  /** Nothing is generated for a tuple's children exactly when none of its
      entries is composite. */
  lemma {:induction false} TupleChildrenEmpty(inf: Inflector, name: string, parent: Type, es: seq<Entry>)
    requires parent.Tuple? && forall e | e in es :: e in parent.content
    ensures TupleChildren(inf, name, parent, es) == [] <==> !exists e :: e in es && IsComposite(e.content)
  {
    if es != [] {
      var e0, rest := es[0], es[1..];
      var head := ChildOutput(inf, TupleChildName(name, e0.index), e0.content);
      ChildOutputEmpty(inf, TupleChildName(name, e0.index), e0.content);
      TupleChildrenEmpty(inf, name, parent, rest);
      assert TupleChildren(inf, name, parent, es) == head + TupleChildren(inf, name, parent, rest);
      assert es == [e0] + rest;
      assert (exists e :: e in es && IsComposite(e.content))
        <==> IsComposite(e0.content) || exists e :: e in rest && IsComposite(e.content);
    }
  }

  /** Nothing is generated for a struct's children exactly when none of its
      fields is composite. */
  lemma {:induction false} StructChildrenEmpty(inf: Inflector, parent: Type, fs: seq<(string, Entry)>)
    requires parent.Struct? && forall f | f in fs :: f in parent.fields
    ensures StructChildren(inf, parent, fs) == [] <==> !exists f :: f in fs && IsComposite(f.1.content)
  {
    if fs != [] {
      var f0, rest := fs[0], fs[1..];
      var head := ChildOutput(inf, StructChildName(inf, f0.0), f0.1.content);
      ChildOutputEmpty(inf, StructChildName(inf, f0.0), f0.1.content);
      StructChildrenEmpty(inf, parent, rest);
      assert StructChildren(inf, parent, fs) == head + StructChildren(inf, parent, rest);
      assert fs == [f0] + rest;
      assert (exists f :: f in fs && IsComposite(f.1.content))
        <==> IsComposite(f0.1.content) || exists f :: f in rest && IsComposite(f.1.content);
    }
  }

  /** The child of a composite entry at position `k` of `es` is among the
      names the module declares. */
  lemma {:induction false} TupleChildNameListed(name: string, es: seq<Entry>, k: nat)
    requires k < |es| && IsComposite(es[k].content)
    ensures TupleChildName(name, es[k].index) in TupleChildNames(name, es)
  {
    if k > 0 {
      TupleChildNameListed(name, es[1..], k - 1);
    }
  }

  lemma {:induction false} StructChildNameListed(inf: Inflector, fs: seq<(string, Entry)>, k: nat)
    requires k < |fs| && IsComposite(fs[k].1.content)
    ensures StructChildName(inf, fs[k].0) in StructChildNames(inf, fs)
  {
    if k > 0 {
      StructChildNameListed(inf, fs[1..], k - 1);
    }
  }

  // ---------------------------------------------------------------------
  // Tuples

  /** The item generated for a tuple, when there is one. */
  function FinalItem(out: seq<Node>): Item
    requires out != [] && out[|out| - 1].Decl?
  {
    out[|out| - 1].item
  }

  /** The tuple arm of the generator, unfolded once. */
  lemma TupleUnfold(inf: Inflector, name: string, doc: Option<string>, content: seq<Entry>)
    ensures var es := SortEntries(content);
      var modName := ModuleName(inf, name);
      GenOneType(inf, name, Tuple(doc, content))
        == ModuleIfAny(modName, TupleChildren(inf, name, Tuple(doc, content), es))
           + [Decl(TupleAlias(name, DocText(doc), TupleSlots(name, modName, es)))]
  {
  }

  /** A tuple becomes one tuple alias with one slot per entry, in ascending
      index order: a primitive slot is inlined with its kind, any other slot
      refers to `snake(name)::name<index>`; each slot carries the nested
      type's documentation. */
  lemma TupleSlotsInIndexOrder(inf: Inflector, name: string, doc: Option<string>, content: seq<Entry>)
    ensures var out := GenOneType(inf, name, Tuple(doc, content));
      var es := SortEntries(content);
      && SortedByKey(es, EntryIndex)
      && multiset(es) == multiset(content)
      && out != [] && out[|out| - 1].Decl?
      && FinalItem(out) == TupleAlias(name, DocText(doc), FinalItem(out).slots)
      && |FinalItem(out).slots| == |content|
      && forall k :: 0 <= k < |content| ==>
           FinalItem(out).slots[k] ==
             Slot(DocText(es[k].content.doc),
                  ExpectedRef(ModuleName(inf, name), TupleChildName(name, es[k].index), es[k].content))
  {
    TupleUnfold(inf, name, doc, content);
  }

  /** A tuple's output has a module, placed before the alias, exactly when
      some entry is composite; that module is named `snake(name)` and
      declares, in ascending index order, one child per composite entry:
      the item generated recursively from that entry's type. The body is
      exactly the complete outputs of those entries, so each child's own
      module (holding the grandchildren) is nested inside it. */
  lemma TupleModule(inf: Inflector, name: string, doc: Option<string>, content: seq<Entry>)
    ensures var out := GenOneType(inf, name, Tuple(doc, content));
      && |out| == (if HasCompositeEntry(content) then 2 else 1)
      && (HasCompositeEntry(content) ==>
            out[0].Module? && out[0].name == ModuleName(inf, name)
            && DeclaredNames(out[0].body) == TupleChildNames(name, SortEntries(content))
            && DeclaredItems(out[0].body) == TupleChildItems(inf, name, SortEntries(content))
            && out[0].body == TupleChildOutputs(inf, name, SortEntries(content)))
  {
    var ty := Tuple(doc, content);
    var es := SortEntries(content);
    TupleUnfold(inf, name, doc, content);
    PermutationMembers(es, content);
    PermutationMembers(content, es);
    TupleChildrenEmpty(inf, name, ty, es);
    TupleChildrenDeclare(inf, name, ty, es);
    TupleChildrenItems(inf, name, ty, es);
    TupleChildrenOutputs(inf, name, ty, es);
    assert HasCompositeEntry(content) <==> exists e :: e in es && IsComposite(e.content);
  }

  /** Every path written in a tuple's slots names the tuple's module, and
      the item it names is declared there whenever the slot's type is
      composite. */
  lemma TuplePathsResolve(inf: Inflector, name: string, doc: Option<string>, content: seq<Entry>, k: nat)
    requires k < |content|
    ensures var out := GenOneType(inf, name, Tuple(doc, content));
      var es := SortEntries(content);
      var slot := FinalItem(out).slots[k];
      && (slot.ty.Path? <==> !(es[k].content.Bool? || es[k].content.U32? || es[k].content.Str?))
      && (slot.ty.Path? ==> slot.ty.modName == ModuleName(inf, name))
      && (IsComposite(es[k].content) ==>
            out[0].Module? && out[0].name == slot.ty.modName && slot.ty.item in DeclaredNames(out[0].body))
  {
    TupleSlotsInIndexOrder(inf, name, doc, content);
    TupleModule(inf, name, doc, content);
    var es := SortEntries(content);
    if IsComposite(es[k].content) {
      assert es[k] in content by {
        PermutationMembers(es, content);
      }
      TupleChildNameListed(name, es, k);
    }
  }

  // ---------------------------------------------------------------------
  // Structs

  /** The struct arm of the generator, unfolded once. */
  lemma StructUnfold(inf: Inflector, name: string, doc: Option<string>, fields: seq<(string, Entry)>)
    ensures var fs := SortFields(fields);
      var modName := ModuleName(inf, name);
      var decls := StructFieldDecls(inf, modName, fs);
      GenOneType(inf, name, Struct(doc, fields))
        == ModuleIfAny(modName, StructChildren(inf, Struct(doc, fields), fs))
           + [Decl(StructDecl(name, DocText(doc), decls, SerializerFor(decls)))]
  {
  }

  /** A struct becomes one struct declaration whose fields follow ascending
      index order, each carrying the nested type's documentation, the
      snake-cased field name as identifier and, as type, the inlined
      primitive or `snake(name)::Pascal(field)`. */
  lemma StructFieldsInIndexOrder(inf: Inflector, name: string, doc: Option<string>, fields: seq<(string, Entry)>)
    ensures var out := GenOneType(inf, name, Struct(doc, fields));
      var fs := SortFields(fields);
      && SortedByKey(fs, FieldIndex)
      && multiset(fs) == multiset(fields)
      && out != [] && out[|out| - 1].Decl?
      && FinalItem(out) == StructDecl(name, DocText(doc), FinalItem(out).fields, FinalItem(out).serializer)
      && |FinalItem(out).fields| == |fields|
      && forall k :: 0 <= k < |fields| ==>
           FinalItem(out).fields[k] ==
             Field(DocText(fs[k].1.content.doc), FieldIdent(inf, fs[k].0),
                   ExpectedRef(ModuleName(inf, name), StructChildName(inf, fs[k].0), fs[k].1.content))
  {
    StructUnfold(inf, name, doc, fields);
  }

  /** The serializer of a struct serializes the positional tuple of its
      fields: its type list and its value list have one element per declared
      field, the field's type and the field's identifier, in the declared
      (ascending index) order. */
  lemma SerializerFollowsFields(inf: Inflector, name: string, doc: Option<string>, fields: seq<(string, Entry)>)
    ensures var out := GenOneType(inf, name, Struct(doc, fields));
      && out != [] && out[|out| - 1].Decl? && FinalItem(out).StructDecl?
      && |FinalItem(out).serializer.types| == |FinalItem(out).fields|
      && |FinalItem(out).serializer.values| == |FinalItem(out).fields|
      && forall k :: 0 <= k < |FinalItem(out).fields| ==>
           && FinalItem(out).serializer.types[k] == FinalItem(out).fields[k].ty
           && FinalItem(out).serializer.values[k] == FinalItem(out).fields[k].ident
  {
    StructUnfold(inf, name, doc, fields);
  }

  /** A struct's output has a module, placed before the declaration,
      exactly when some field is composite; that module is named
      `snake(name)` and declares, in ascending index order, one child per
      composite field: the item generated recursively from that field's
      type. The body is exactly the complete outputs of those fields, so
      each child's own module is nested inside it. */
  lemma StructModule(inf: Inflector, name: string, doc: Option<string>, fields: seq<(string, Entry)>)
    ensures var out := GenOneType(inf, name, Struct(doc, fields));
      && |out| == (if HasCompositeField(fields) then 2 else 1)
      && (HasCompositeField(fields) ==>
            out[0].Module? && out[0].name == ModuleName(inf, name)
            && DeclaredNames(out[0].body) == StructChildNames(inf, SortFields(fields))
            && DeclaredItems(out[0].body) == StructChildItems(inf, SortFields(fields))
            && out[0].body == StructChildOutputs(inf, SortFields(fields)))
  {
    var ty := Struct(doc, fields);
    var fs := SortFields(fields);
    StructUnfold(inf, name, doc, fields);
    PermutationMembers(fs, fields);
    PermutationMembers(fields, fs);
    StructChildrenEmpty(inf, ty, fs);
    StructChildrenDeclare(inf, ty, fs);
    StructChildrenItems(inf, ty, fs);
    StructChildrenOutputs(inf, ty, fs);
    assert HasCompositeField(fields) <==> exists f :: f in fs && IsComposite(f.1.content);
  }

  /** Every path written in a struct's fields names the struct's module,
      and the item it names is declared there whenever the field's type is
      composite. */
  lemma StructPathsResolve(inf: Inflector, name: string, doc: Option<string>, fields: seq<(string, Entry)>, k: nat)
    requires k < |fields|
    ensures var out := GenOneType(inf, name, Struct(doc, fields));
      var fs := SortFields(fields);
      var field := FinalItem(out).fields[k];
      && (field.ty.Path? <==> !(fs[k].1.content.Bool? || fs[k].1.content.U32? || fs[k].1.content.Str?))
      && (field.ty.Path? ==> field.ty.modName == ModuleName(inf, name))
      && (IsComposite(fs[k].1.content) ==>
            out[0].Module? && out[0].name == field.ty.modName && field.ty.item in DeclaredNames(out[0].body))
  {
    StructFieldsInIndexOrder(inf, name, doc, fields);
    StructModule(inf, name, doc, fields);
    var fs := SortFields(fields);
    if IsComposite(fs[k].1.content) {
      assert fs[k] in fields by {
        PermutationMembers(fs, fields);
      }
      StructChildNameListed(inf, fs, k);
    }
  }

  // ---------------------------------------------------------------------
  // Top level

  /** The pascal-cased names of the top-level entries that produce output,
      in iteration order. */
  function TopLevelNames(inf: Inflector, types: seq<(string, Type)>): seq<string>
  {
    if types == [] then []
    else
      var last := types[|types| - 1];
      TopLevelNames(inf, types[..|types| - 1]) + (if last.1.Other? then [] else [inf.toPascalCase(last.0)])
  }

  /** The top-level output concatenates the entries' outputs: generating
      two runs of entries one after the other gives the outputs of the
      first run followed by those of the second. */
  lemma {:induction false} AllTypesAppend(inf: Inflector, a: seq<(string, Type)>, b: seq<(string, Type)>)
    ensures AllTypes(inf, a + b) == AllTypes(inf, a) + AllTypes(inf, b)
  {
    if b == [] {
      assert a + b == a;
    } else {
      var init, last := b[..|b| - 1], b[|b| - 1];
      assert b == init + [last];
      AllTypesAppend(inf, a, init);
      AllTypesAppendStep(inf, a, init, last);
    }
  }

  /** The inductive step of `AllTypesAppend`: appending one entry to both
      sides keeps the concatenation. */
  lemma AllTypesAppendStep(inf: Inflector, a: seq<(string, Type)>, init: seq<(string, Type)>, last: (string, Type))
    requires AllTypes(inf, a + init) == AllTypes(inf, a) + AllTypes(inf, init)
    ensures AllTypes(inf, a + (init + [last])) == AllTypes(inf, a) + AllTypes(inf, init + [last])
  {
    assert a + (init + [last]) == (a + init) + [last];
    AllTypesSnoc(inf, a + init, last);
    AllTypesSnoc(inf, init, last);
    ConcatAssoc(AllTypes(inf, a), AllTypes(inf, init), GenOneType(inf, inf.toPascalCase(last.0), last.1));
  }

  /** Proof helper, not a property of the generator: sequence
      concatenation is associative. Stating it as a call keeps the solver
      from proving it inside the larger step above. */
  lemma ConcatAssoc<T>(x: seq<T>, y: seq<T>, z: seq<T>)
    ensures (x + y) + z == x + (y + z)
  {
  }

  /** One more entry appends its own output. */
  lemma AllTypesSnoc(inf: Inflector, s: seq<(string, Type)>, x: (string, Type))
    ensures AllTypes(inf, s + [x]) == AllTypes(inf, s) + GenOneType(inf, inf.toPascalCase(x.0), x.1)
  {
    assert (s + [x])[..|s|] == s;
  }

  /** The top level declares one item per known entry, under its
      pascal-cased name, in iteration order. */
  lemma {:induction false} AllTypesDeclared(inf: Inflector, types: seq<(string, Type)>)
    ensures DeclaredNames(AllTypes(inf, types)) == TopLevelNames(inf, types)
  {
    if types != [] {
      var last := types[|types| - 1];
      AllTypesDeclared(inf, types[..|types| - 1]);
      DeclaredNamesAppend(AllTypes(inf, types[..|types| - 1]), GenOneType(inf, inf.toPascalCase(last.0), last.1));
      GenOneTypeDeclares(inf, inf.toPascalCase(last.0), last.1);
    }
  }
}

=== FILE: declarations.dfy ===
/** The generated declaration tree: what the generator emits, in place of
    the token streams it renders. */
module Declarations {

  datatype Primitive = BoolKind | U32Kind | StringKind

  /** A type written in a slot or field: a primitive inlined directly, or a
      path `module::Item` into the parent's child module. */
  datatype TypeRef = Inline(kind: Primitive) | Path(modName: string, item: string)

  /** A tuple slot: its type, with the nested type's documentation as an
      inline comment. */
  datatype Slot = Slot(doc: string, ty: TypeRef)

  /** A struct field: documentation, identifier and type. */
  datatype Field = Field(doc: string, ident: string, ty: TypeRef)

  /** The serializer of a struct: it serializes the positional tuple whose
      type list is `types` and whose value list is the fields `values`. */
  datatype Serializer = Serializer(types: seq<TypeRef>, values: seq<string>)

  datatype Item =
    | Alias(name: string, doc: string, target: Primitive)
    | TupleAlias(name: string, doc: string, slots: seq<Slot>)
    | StructDecl(name: string, doc: string, fields: seq<Field>, serializer: Serializer)

  /** A generated module holding child declarations, or one item. */
  datatype Node = Module(name: string, body: seq<Node>) | Decl(item: Item)

  /** The names of the items declared directly in `nodes` (not inside a
      module), in order. */
  function DeclaredNames(nodes: seq<Node>): seq<string>
  {
    if nodes == [] then []
    else (if nodes[0].Decl? then [nodes[0].item.name] else []) + DeclaredNames(nodes[1..])
  }

  lemma {:induction false} DeclaredNamesAppend(a: seq<Node>, b: seq<Node>)
    ensures DeclaredNames(a + b) == DeclaredNames(a) + DeclaredNames(b)
  {
    if a == [] {
      assert a + b == b;
    } else {
      assert (a + b)[0] == a[0];
      assert (a + b)[1..] == a[1..] + b;
      DeclaredNamesAppend(a[1..], b);
    }
  }

  /** The items declared directly in `nodes` (not inside a module), in
      order. */
  function DeclaredItems(nodes: seq<Node>): seq<Item>
  {
    if nodes == [] then []
    else (if nodes[0].Decl? then [nodes[0].item] else []) + DeclaredItems(nodes[1..])
  }

  /** The declared names are the names of the declared items. */
  lemma {:induction false} DeclaredItemsNamed(nodes: seq<Node>)
    ensures |DeclaredItems(nodes)| == |DeclaredNames(nodes)|
    ensures forall k :: 0 <= k < |DeclaredItems(nodes)| ==> DeclaredItems(nodes)[k].name == DeclaredNames(nodes)[k]
  {
    if nodes != [] {
      DeclaredItemsNamed(nodes[1..]);
    }
  }

  lemma {:induction false} DeclaredItemsAppend(a: seq<Node>, b: seq<Node>)
    ensures DeclaredItems(a + b) == DeclaredItems(a) + DeclaredItems(b)
  {
    if a == [] {
      assert a + b == b;
    } else {
      assert (a + b)[0] == a[0];
      assert (a + b)[1..] == a[1..] + b;
      DeclaredItemsAppend(a[1..], b);
    }
  }
}

=== FILE: naming.dfy ===
/** How the generator names modules, child declarations and struct fields.
    The case conversions come from a foreign inflection library and are kept
    abstract: every property below holds for any pair of conversions. */
module Naming {

  /** The two case conversions of the inflection library. */
  datatype Inflector = Inflector(toSnakeCase: string -> string, toPascalCase: string -> string)

  /** The module that holds the children of the type `name`. */
  function ModuleName(inf: Inflector, name: string): string
  {
    inf.toSnakeCase(name)
  }

  /** The declaration generated for a composite struct field. */
  function StructChildName(inf: Inflector, field: string): string
  {
    inf.toPascalCase(field)
  }

  /** The identifier of a struct field. */
  function FieldIdent(inf: Inflector, field: string): string
  {
    inf.toSnakeCase(field)
  }

  /** The declaration generated for a composite tuple slot: the parent's name
      followed by the slot's index in decimal, with no separator. */
  function TupleChildName(parent: string, index: nat): string
  {
    parent + Decimal(index)
  }

  predicate IsDigit(ch: char)
  {
    '0' <= ch <= '9'
  }

  function Digit(d: nat): (ch: char)
    requires d < 10
    ensures IsDigit(ch) && ch as int - '0' as int == d
  {
    ('0' as int + d) as char
  }

  /** The decimal rendering of `n`: digits only, at least one, and no
      leading zero unless `n` is zero. */
  function Decimal(n: nat): (s: string)
    ensures |s| >= 1
    ensures forall k :: 0 <= k < |s| ==> IsDigit(s[k])
    ensures s[0] == '0' ==> n == 0 && s == "0"
  {
    if n < 10 then [Digit(n)] else Decimal(n / 10) + [Digit(n % 10)]
  }

  /** The value of a string of decimal digits. */
  function DigitsValue(s: string): nat
    requires forall k :: 0 <= k < |s| ==> IsDigit(s[k])
  {
    if s == [] then 0
    else
      assert IsDigit(s[|s| - 1]);
      10 * DigitsValue(s[..|s| - 1]) + (s[|s| - 1] as int - '0' as int)
  }

  /** Reading back the decimal rendering gives the number. */
  lemma {:induction false} DecimalRoundTrip(n: nat)
    ensures DigitsValue(Decimal(n)) == n
  {
    if n >= 10 {
      DecimalRoundTrip(n / 10);
      var s := Decimal(n);
      assert s[..|s| - 1] == Decimal(n / 10);
    }
  }

  /** Two slots of one tuple with different indices never give their
      children the same name. */
  lemma TupleChildNamesDistinct(parent: string, i: nat, j: nat)
    requires i != j
    ensures TupleChildName(parent, i) != TupleChildName(parent, j)
  {
    if TupleChildName(parent, i) == TupleChildName(parent, j) {
      assert Decimal(i) == TupleChildName(parent, i)[|parent|..];
      assert Decimal(j) == TupleChildName(parent, j)[|parent|..];
      DecimalRoundTrip(i);
      DecimalRoundTrip(j);
    }
  }
}

=== FILE: sorting.dfy ===
/** Sorting by an integer key. Only sortedness and permutation are promised;
    the relative order of elements with equal keys is left unspecified. */
module Sorting {

  ghost predicate SortedByKey<T>(s: seq<T>, key: T -> int)
  {
    forall i, j :: 0 <= i < j < |s| ==> key(s[i]) <= key(s[j])
  }

  /** Inserts `x` into the sorted sequence `s`. */
  function InsertByKey<T>(x: T, s: seq<T>, key: T -> int): (r: seq<T>)
    requires SortedByKey(s, key)
    ensures SortedByKey(r, key)
    ensures multiset(r) == multiset(s) + multiset{x}
    ensures |r| == |s| + 1
  {
    if s == [] || key(x) <= key(s[0]) then
      [x] + s
    else
      SortedSplit(s, key);
      var rest := InsertByKey(x, s[1..], key);
      assert s == [s[0]] + s[1..];
      LowerBoundKept(key(s[0]), x, s[1..], rest, key);
      SortedCons(s[0], rest, key);
      [s[0]] + rest
  }

  /** The tail of a sorted sequence is sorted and bounded below by its head. */
  lemma SortedSplit<T>(s: seq<T>, key: T -> int)
    requires s != [] && SortedByKey(s, key)
    ensures SortedByKey(s[1..], key)
    ensures forall k :: 0 <= k < |s[1..]| ==> key(s[0]) <= key(s[1..][k])
  {
    forall i, j | 0 <= i < j < |s[1..]|
      ensures key(s[1..][i]) <= key(s[1..][j])
    {
      assert s[1..][i] == s[i + 1] && s[1..][j] == s[j + 1];
    }
    forall k | 0 <= k < |s[1..]|
      ensures key(s[0]) <= key(s[1..][k])
    {
      assert s[1..][k] == s[k + 1];
    }
  }

  /** A head no greater than any element of a sorted tail keeps it sorted. */
  lemma SortedCons<T>(h: T, r: seq<T>, key: T -> int)
    requires SortedByKey(r, key)
    requires forall k :: 0 <= k < |r| ==> key(h) <= key(r[k])
    ensures SortedByKey([h] + r, key)
  {
    forall i, j | 0 <= i < j < |[h] + r|
      ensures key(([h] + r)[i]) <= key(([h] + r)[j])
    {
      assert ([h] + r)[j] == r[j - 1];
      if i > 0 {
        assert ([h] + r)[i] == r[i - 1];
      }
    }
  }

  /** A bound below `x` and every element of `s` is below every element of
      a permutation of `s` plus `x`. */
  lemma LowerBoundKept<T>(b: int, x: T, s: seq<T>, r: seq<T>, key: T -> int)
    requires b <= key(x)
    requires forall k :: 0 <= k < |s| ==> b <= key(s[k])
    requires multiset(r) == multiset(s) + multiset{x}
    ensures forall k :: 0 <= k < |r| ==> b <= key(r[k])
  {
    forall k | 0 <= k < |r|
      ensures b <= key(r[k])
    {
      assert r[k] in multiset(r);
      if r[k] != x {
        assert r[k] in multiset(s);
        var m :| 0 <= m < |s| && s[m] == r[k];
      }
    }
  }

  /** Sorts `s` by `key`; the result is sorted and a permutation of `s`. */
  function SortByKey<T>(s: seq<T>, key: T -> int): (r: seq<T>)
    ensures SortedByKey(r, key)
    ensures multiset(r) == multiset(s)
    ensures |r| == |s|
  {
    if s == [] then
      []
    else
      assert s == [s[0]] + s[1..];
      InsertByKey(s[0], SortByKey(s[1..], key), key)
  }

  /** Every element of a permutation of `s` is an element of `s`. */
  lemma PermutationMembers<T>(r: seq<T>, s: seq<T>)
    requires multiset(r) == multiset(s)
    ensures forall x | x in r :: x in s
  {
    forall x | x in r
      ensures x in s
    {
      assert x in multiset(r);
    }
  }

  /** Keys that strictly ascend already: sorting leaves the sequence
      unchanged. Strictness matters, since an unstable sort may reorder
      elements with equal keys. */
  lemma {:induction false} SortSortedIdentity<T>(s: seq<T>, key: T -> int)
    requires forall i, j :: 0 <= i < j < |s| ==> key(s[i]) < key(s[j])
    ensures SortByKey(s, key) == s
  {
    if s != [] {
      SortedSplit(s, key);
      assert forall i, j :: 0 <= i < j < |s[1..]| ==> key(s[1..][i]) < key(s[1..][j]) by {
        forall i, j | 0 <= i < j < |s[1..]|
          ensures key(s[1..][i]) < key(s[1..][j])
        {
          assert s[1..][i] == s[i + 1] && s[1..][j] == s[j + 1];
        }
      }
      SortSortedIdentity(s[1..], key);
      assert s == [s[0]] + s[1..];
    }
  }

  /** Two elements with different keys come out in key order. */
  lemma SortTwo<T>(x: T, y: T, key: T -> int)
    requires key(x) != key(y)
    ensures SortByKey([x, y], key) == if key(x) < key(y) then [x, y] else [y, x]
  {
    assert [x, y][1..] == [y];
    assert SortByKey([y], key) == [y] by {
      assert [y][1..] == [];
    }
  }
}

=== FILE: spec_model.dfy ===
/** The parsed API specification as the generator consumes it: a tree of
    `Type` values whose composite variants carry entries with a declared
    `index` that fixes their order. */
module SpecModel {
  import opened Wrappers

  /** One type of the specification. `Other` stands for every variant of the
      specification crate beyond the five the generator knows; it keeps only
      its documentation. */
  datatype Type =
    | Bool(doc: Option<string>)
    | U32(doc: Option<string>)
    | Str(doc: Option<string>)
    | Tuple(doc: Option<string>, content: seq<Entry>)
    | Struct(doc: Option<string>, fields: seq<(string, Entry)>)
    | Other(doc: Option<string>)

  /** A tuple slot or the value half of a struct field. */
  datatype Entry = Entry(index: nat, content: Type)

  /** A missing documentation string is rendered as the empty string. */
  function DocText(doc: Option<string>): string
  {
    match doc
    case Some(s) => s
    case None => ""
  }

  /** Tuple and Struct are the composite variants: the only ones that produce
      a declaration of their own when nested. */
  predicate IsComposite(t: Type)
  {
    t.Tuple? || t.Struct?
  }

  /** The sort keys of tuple entries and struct fields. */
  function EntryIndex(e: Entry): int
  {
    e.index
  }

  function FieldIndex(f: (string, Entry)): int
  {
    f.1.index
  }
}

=== FILE: wrappers.dfy ===
/** The optional-value type used by the specification document (a missing
    `doc`) and by the primitive check of the generator. */
module Wrappers {

  datatype Option<+T> = None | Some(value: T)

}
